=== FILE: README.md ===
# Podcast app client state, modelled in Dafny

This project models the client-side state logic of a React podcast app:

- the favourites registry and its heart button;
- the listening-progress store;
- the shared audio player's state machine and its player bar;
- the show page's episode-key derivation, episode count and season choices;
- the page bar;
- the light/dark theme switch.

Browser storage is a record with one slot per key the app uses (`favourites`, `listeningProgress`, `theme`). Each slot holds the already-parsed document, so `JSON.stringify` followed by `JSON.parse` is taken to round-trip. React state setters are direct assignments. An effect is an explicit transition that runs right after the update it depends on. The audio element is not modelled: what it reports back is an input of the player model, in any order. Each command returns the requests it makes of the element (set source, load, play, pause, set position, alert). Times are whole seconds.

Modules, one per source file plus shared helpers:

- `Wrappers`: `Option`.
- `Decimal`: prints a natural number as a template literal does, with its inverse parse. This matches JavaScript only below 10^21, where JavaScript switches to exponent form (`${1e21}` is `"1e+21"`). Episode, season and page numbers and times in seconds stay far below that.
- `Domain`: the episode reference, the favourite record and the progress record.
- `Storage`: the browser store.
- `Favourites`, `FavouritesButton`, `ListeningProgress`, `AudioPlayer`, `GlobalAudioPlayer`, `PodcastDetail`, `Pagination`, `Theme`.

The model follows what the code does, including where it falls short of what one would expect of a podcast player or of its own comments:

- `saveProgress` stores the record exactly as given. It does not clamp the position into `[0, duration]`.
- `seek` sets the time exactly as asked. It does not clamp (`AudioPlayer.SeekIsNotClamped`).
- The handler for a resolved play request does not check that its episode is still the current one. A late confirmation therefore sets `isPlaying` even after a switch to an episode that has no url (`AudioPlayer.StaleConfirmationIsApplied`).
- `playEpisode` does not seek to saved progress, and it does not reset the time or the duration (`AudioPlayer.TimeIsLastSetOrReported`). This is despite the comment at `podcast-app/src/context/AudioPlayerContext.jsx` line 43, which says the effect will "reset time"; the effect body (lines 44-58) never touches the time.
- None of the modelled files calls `saveProgress`, on pause, on unload or anywhere else.
- The `beforeunload` handler only asks the browser to confirm leaving while playing. It saves nothing.

`podcast-app/src/context/ThemeContext.jsx` line 5 lacks the `=>` of an arrow function. The model takes the provider to be that arrow function.

## Model

| member | source | states |
|---|---|---|
| Favourites.IsFavourite | podcast-app/src/context/FavouritesContext.jsx:29-31 | true exactly when some record in the list carries the given `episodeId` |
| Favourites.AddFavourite | podcast-app/src/context/FavouritesContext.jsx:16-23 | when the id is present, the list is returned unchanged; otherwise exactly one record `{...episode, addedAt}` is appended and all earlier records stay in place; afterwards the id is a favourite and no other id changes status |
| Favourites.RemoveFavourite | podcast-app/src/context/FavouritesContext.jsx:25-27 | afterwards the id is not a favourite, and the list is no longer than before |
| Favourites.RemoveKeepsOtherRecords | podcast-app/src/context/FavouritesContext.jsx:26 | a record survives removal exactly when it was present and carries another id |
| Favourites.RemoveKeepsOtherIds | podcast-app/src/context/FavouritesContext.jsx:26 | removal leaves the favourite status of every other id unchanged |
| Favourites.RemoveDistributes | podcast-app/src/context/FavouritesContext.jsx:26 | removal of an id from a concatenation is the concatenation of the removals, so survivors keep their relative order |
| Favourites.RemoveAbsent | podcast-app/src/context/FavouritesContext.jsx:26 | removing an id that no record carries leaves the list unchanged |
| Favourites.AddKeepsNoDuplicates | podcast-app/src/context/FavouritesContext.jsx:17-21 | adding keeps the invariant that no two records share an `episodeId` |
| Favourites.RemoveKeepsNoDuplicates | podcast-app/src/context/FavouritesContext.jsx:26 | removing keeps the invariant that no two records share an `episodeId` |
| Favourites.AddThenRemove | podcast-app/src/context/FavouritesContext.jsx:21-26 | adding a fresh episode and then removing its id restores the original list exactly |
| Favourites.AddIdempotent | podcast-app/src/context/FavouritesContext.jsx:18-20 | a second add of the same episode, at any time, changes nothing |
| Favourites.Load | podcast-app/src/context/FavouritesContext.jsx:6-9 | the initial list is the stored `favourites` value, or empty when the key is missing |
| Favourites.Persist | podcast-app/src/context/FavouritesContext.jsx:12-14 | writing the list makes a later load return exactly that list and leaves the other keys untouched |
| Favourites.Mount | podcast-app/src/context/FavouritesContext.jsx:6-14 | after mounting, the store holds exactly the loaded list, and the other keys are untouched |
| Favourites.Commit | podcast-app/src/context/FavouritesContext.jsx:12-14 | after any change, the store holds exactly the new list, and the other keys are untouched |
| Favourites.ReloadSeesLastWrite | podcast-app/src/context/FavouritesContext.jsx:6-14 | remounting after a change starts from the list last written |
| FavouritesButton.ToggleFavourite | podcast-app/src/components/UI/FavouritesButton.jsx:19-27 | one click flips the episode's favourite status and changes no other id's status; on a non-favourite it appends the record; on a favourite it returns exactly `removeFavourite`'s filter, so the other records keep their order |
| FavouritesButton.ToggleKeepsNoDuplicates | podcast-app/src/components/UI/FavouritesButton.jsx:21-27 | a click keeps the no-duplicate-ids invariant |
| FavouritesButton.ToggleTwiceRestores | podcast-app/src/components/UI/FavouritesButton.jsx:21-27 | two clicks starting from not-favourited restore the original list exactly |
| FavouritesButton.HeartOf | podcast-app/src/components/UI/FavouritesButton.jsx:31-36 | the heart is filled exactly when some record carries the episode's id |
| FavouritesButton.ClickFlipsHeart | podcast-app/src/components/UI/FavouritesButton.jsx:19-36 | every click changes the heart shown |
| ListeningProgress.GetAllProgress | podcast-app/src/utils/listeningProgress.js:3-6 | with no stored document, the map is empty; otherwise it is the stored map |
| ListeningProgress.GetProgress | podcast-app/src/utils/listeningProgress.js:8-11 | a record is present exactly when the key is in the stored map, and it is that map's entry |
| ListeningProgress.SaveProgress | podcast-app/src/utils/listeningProgress.js:13-17 | afterwards the key reads back exactly the given record, not clamped; every other key reads as before; no key disappears; favourites and theme are untouched |
| ListeningProgress.ClearAllProgress | podcast-app/src/utils/listeningProgress.js:19-21 | afterwards every key reads as absent and the map is empty; the other keys are untouched |
| ListeningProgress.SaveIdempotent | podcast-app/src/utils/listeningProgress.js:13-17 | saving the same record twice equals saving it once |
| ListeningProgress.GetAfterSaves | podcast-app/src/utils/listeningProgress.js:8-17 | after any sequence of saves, a key reads the record of its latest save, or what it read before if it was never saved |
| ListeningProgress.NeverSavedIsAbsent | podcast-app/src/utils/listeningProgress.js:3-11 | from an empty store, a key that no save used reads as absent |
| ListeningProgress.NotSavedHasNoLast | podcast-app/src/utils/listeningProgress.js:13-17 | a key used by no save has no latest save |
| Theme.InitialTheme | podcast-app/src/context/ThemeContext.jsx:6-8 | the initial theme is the stored `theme` value, or `"light"` when it is missing or empty; it is never empty |
| Theme.ToggleTheme | podcast-app/src/context/ThemeContext.jsx:15-17 | `"light"` becomes `"dark"`, any other value becomes `"light"`, and the result is always one of the two |
| Theme.PersistTheme | podcast-app/src/context/ThemeContext.jsx:10-13 | the theme is written under `theme`; the other keys are untouched |
| Theme.Mount | podcast-app/src/context/ThemeContext.jsx:6-13 | after mounting, the theme is the initial theme, the store holds it under `theme`, and favourites and listening progress are untouched |
| Theme.Toggle | podcast-app/src/context/ThemeContext.jsx:10-17 | a click sets the theme to `ToggleTheme` of the old one, which always differs from it; the store holds the new theme, and favourites and listening progress are untouched |
| Theme.ToggleTwice | podcast-app/src/context/ThemeContext.jsx:15-16 | starting from `"light"` or `"dark"`, two toggles return the starting theme |
| Theme.ReloadKeepsTheme | podcast-app/src/context/ThemeContext.jsx:6-17 | remounting after a toggle starts with the toggled theme |
| AudioPlayer.PlayEpisode | podcast-app/src/context/AudioPlayerContext.jsx:44-58 | the current episode becomes the given one and nothing else observable changes; when the url is present and non-empty, the element is asked, in this order, to take the url as its source, to load, and to play, and nothing else; otherwise nothing is asked of it |
| AudioPlayer.PauseEpisode | podcast-app/src/context/AudioPlayerContext.jsx:113-116 | always ends not playing, with every other field unchanged, and pauses the element |
| AudioPlayer.ResumeEpisode | podcast-app/src/context/AudioPlayerContext.jsx:118-121 | always ends playing, with every other field unchanged, and starts the element |
| AudioPlayer.Toggle | podcast-app/src/context/AudioPlayerContext.jsx:123-126 | negates the playing flag and leaves every other field unchanged; pauses the element when it was playing and starts it otherwise |
| AudioPlayer.Seek | podcast-app/src/context/AudioPlayerContext.jsx:128-131 | the time becomes exactly the requested one; the episode, duration and playing flag are unchanged; the element is moved to the same time |
| AudioPlayer.OnPlayResolved | podcast-app/src/context/AudioPlayerContext.jsx:51-53 | a resolved start sets the playing flag, whichever episode is current, and changes nothing else |
| AudioPlayer.OnPlayRejected | podcast-app/src/context/AudioPlayerContext.jsx:54-57 | a failed start clears the playing flag, changes nothing else and raises the failure alert |
| AudioPlayer.OnLoadedMetadata | podcast-app/src/context/AudioPlayerContext.jsx:65-67 | the duration becomes the element's duration, or 0 when it reports none; nothing else changes |
| AudioPlayer.OnTimeUpdate | podcast-app/src/context/AudioPlayerContext.jsx:68-70 | the time copies the element's position; nothing else changes |
| AudioPlayer.OnPause | podcast-app/src/context/AudioPlayerContext.jsx:72-74 | the `pause` event clears the playing flag and changes nothing else |
| AudioPlayer.OnPlay | podcast-app/src/context/AudioPlayerContext.jsx:76-78 | the `play` event sets the playing flag and changes nothing else |
| AudioPlayer.OnEnded | podcast-app/src/context/AudioPlayerContext.jsx:80-82 | the `ended` event clears the playing flag and changes nothing else |
| AudioPlayer.UnloadWarning | podcast-app/src/context/AudioPlayerContext.jsx:99-107 | leaving the page is questioned exactly while playing |
| AudioPlayer.StoppedMeansNoUnloadWarning | podcast-app/src/context/AudioPlayerContext.jsx:72-107 | after a pause command, a `pause` or `ended` event, or a failed start, leaving the page is not questioned |
| AudioPlayer.EpisodeIsLastRequested | podcast-app/src/context/AudioPlayerContext.jsx:109-111 | after any run of commands and events, the current episode is the one named by the latest `playEpisode`, or the initial one |
| AudioPlayer.TimeIsLastSetOrReported | podcast-app/src/context/AudioPlayerContext.jsx:68-70 | after any run, the time is the latest value from `seek` or `timeupdate`; switching episodes neither resets nor restores it |
| AudioPlayer.DurationIsLastReported | podcast-app/src/context/AudioPlayerContext.jsx:65-67 | after any run, the duration is the latest one reported with metadata, or the initial one |
| AudioPlayer.ToggleTwice | podcast-app/src/context/AudioPlayerContext.jsx:123-126 | two toggles restore the whole observable state |
| AudioPlayer.EchoesAreNoOps | podcast-app/src/context/AudioPlayerContext.jsx:72-78 | the element's `pause` event after `pauseEpisode`, and its `play` event after `resumeEpisode`, change nothing further |
| AudioPlayer.StaleConfirmationIsApplied | podcast-app/src/context/AudioPlayerContext.jsx:51-53 | a late resolution of an earlier start, after a switch to an episode without a url, still leaves the player marked playing |
| AudioPlayer.SeekIsNotClamped | podcast-app/src/context/AudioPlayerContext.jsx:128-131 | seeking beyond the duration leaves the time beyond the duration |
| GlobalAudioPlayer.FormatTime | podcast-app/src/components/UI/GlobalAudioPlayer.jsx:16-20 | the text is a digit field, a colon, and a two-digit field |
| GlobalAudioPlayer.FormatTimeReadsBack | podcast-app/src/components/UI/GlobalAudioPlayer.jsx:16-20 | the minutes field reads `s / 60` without leading zeros; the seconds field reads `s % 60`, which lies in `[0, 59]`; minutes times 60 plus seconds gives back `s` |
| GlobalAudioPlayer.FormatZero | podcast-app/src/components/UI/GlobalAudioPlayer.jsx:19 | zero seconds is shown as `0:00` |
| GlobalAudioPlayer.Render | podcast-app/src/components/UI/GlobalAudioPlayer.jsx:26-59 | nothing is rendered exactly when no episode is current; otherwise the bar shows the episode's title, show title, season title and number, the pause icon exactly while playing, the elapsed and total labels as `formatTime` of the time and the duration, and a slider with max the duration and value the time |
| GlobalAudioPlayer.RenderedTimesReadBack | podcast-app/src/components/UI/GlobalAudioPlayer.jsx:45-56 | each label's minutes field is the whole minutes without leading zeros and its seconds field reads as the remaining seconds, at most 59; together they read back as the player's time and duration |
| GlobalAudioPlayer.OnSliderChange | podcast-app/src/components/UI/GlobalAudioPlayer.jsx:51-53 | moving the slider seeks to exactly the chosen value and moves the element there; the episode, the playing flag and the duration are unchanged |
| GlobalAudioPlayer.SliderShowsChosenPosition | podcast-app/src/components/UI/GlobalAudioPlayer.jsx:45-54 | after a slider move, the bar shows the chosen value on the slider and as the elapsed time |
| GlobalAudioPlayer.ButtonFlipsIcon | podcast-app/src/components/UI/GlobalAudioPlayer.jsx:31-33 | a click on the play/pause button flips its icon |
| PodcastDetail.EpisodeNumber | podcast-app/src/components/Podcasts/PodcastDetail.jsx:110 | the episode number is the 0-based index plus one, so it is at least 1 |
| PodcastDetail.EpisodeKeyInjective | podcast-app/src/components/Podcasts/PodcastDetail.jsx:111-113 | two episode keys are equal exactly when they are built from the same show id, season index and episode index |
| PodcastDetail.SeasonKeysDistinct | podcast-app/src/components/Podcasts/PodcastDetail.jsx:109-113 | within one season of one show, distinct episode indices give distinct list keys |
| PodcastDetail.EpisodeKey | podcast-app/src/components/Podcasts/PodcastDetail.jsx:111 | the key is the show id, `-S`, the season number, `-E` and the episode number; both numbers are printed without leading zeros and read back as their index plus one (season index + 1, episode index + 1) |
| PodcastDetail.EpisodeRef | podcast-app/src/components/Podcasts/PodcastDetail.jsx:127-155 | a card's episode reference has the derived key as `episodeId`, `episodeNumber` equal to the 0-based index plus one, the episode's file as `url`, and the show's id |
| PodcastDetail.CardIdsDistinct | podcast-app/src/components/Podcasts/PodcastDetail.jsx:109-113 | two different cards of one show never share an `episodeId` |
| PodcastDetail.CardButtonsAgree | podcast-app/src/components/Podcasts/PodcastDetail.jsx:127-155 | after a click on a card's play button, the player's episode has the same `episodeId`, `url` and `episodeNumber` as the card's favourites button, and that button flips the favourite status of exactly that episode |
| PodcastDetail.TotalEpisodes | podcast-app/src/components/Podcasts/PodcastDetail.jsx:69-72 | the total is the number of episodes over all seasons, so no season has more episodes than the total |
| PodcastDetail.SeasonChoices | podcast-app/src/components/Podcasts/PodcastDetail.jsx:100-104 | one choice per season, whose values are exactly the indices `0..n-1` in order; each caption is `Season ` followed by the index plus one, printed without leading zeros |
| Pagination.Pages | podcast-app/src/components/UI/Pagination.jsx:22 | the list has `totalPages` entries, contains exactly the pages `1..totalPages`, starts at 1, ends at `totalPages`, and rises by one at each step |
| Pagination.Render | podcast-app/src/components/UI/Pagination.jsx:17-36 | nothing is rendered exactly when `totalPages <= 1`; otherwise one button per page, in order, and a button is active exactly when its page is the current one |
| Pagination.ActiveButtonUnique | podcast-app/src/components/UI/Pagination.jsx:29 | at most one button is active, and there is one exactly when `1 <= page <= totalPages` |
| Pagination.Click | podcast-app/src/components/UI/Pagination.jsx:30 | clicking a button makes its page current and keeps the page count |
| Pagination.ClickActivatesButton | podcast-app/src/components/UI/Pagination.jsx:29-30 | after clicking a rendered button, the re-rendered bar marks that button active and no other |

## Left out

- ListeningProgress.SaveProgress: the stored progress document is a JavaScript plain object, modelled as a map. Keys that name properties inherited from `Object.prototype` behave differently in JavaScript. `saveProgress("__proto__", d)` replaces the object's prototype instead of adding a key, and `JSON.stringify` then drops it, so a later read does not return `d`. The model's read-back promise does not hold for that key. Keys built by `PodcastDetail.EpisodeKey` always contain `-S` and never name such a property.
- ListeningProgress.GetProgress: for the same reason, on a store without that key `getProgress("constructor")` (or any other inherited property name) returns the inherited value, where the model returns absent.
- `localStorage` and JSON: the store is a typed record, serialisation is taken to round-trip, and storage failures (quota, parse errors) are not modelled. The code does not handle them.
- Favourites.NoDuplicateIds on load: the code does not deduplicate a stored list. The invariant is preserved from any duplicate-free start, but nothing ensures that the stored list was duplicate-free.
- React scheduling: setters are immediate and effects run right after their update. The effect keyed on `currentEpisode` is taken to run on every `playEpisode`, because the show page passes a fresh object each time. A call with the very same object would not rerun it.
- The audio element and `alert`: the element's behaviour, the timing of its events and the promise of `play()` are inputs, not simulated. The promise returned by `play()` in `resumeEpisode` has no handler, so its rejection changes no state and is not an input.
- Event-listener registration and removal, `e.preventDefault()` and `document.body.dataset.theme` are DOM wiring and are not modelled.
- Times are natural numbers. Fractional, negative, NaN and infinite times (for example a live stream's infinite duration) are out of scope.
- PodcastDetail: the selected-season state, the back button, the cover and genre markup, and `formatDate`. `utils/formatDate` and `GenreTags` are not part of this model. An out-of-range season index makes the page throw; `EpisodeRef` requires valid indices instead of modelling that throw.
- Pagination: the page state lives in `PodcastContext`, which is not part of this model. `Pagination.PageState` stands in for it.
- `RecommendedCarousel.jsx`: its shuffle uses a random comparator, and its scrolling is floating-point DOM geometry.
- `SearchBar.jsx`: its only logic is a timer-based debounce.
- `Header.jsx`, `main.jsx` and `pages/Favourites.jsx`: markup and provider wiring only.

=== FILE: audio_player.dfy ===
/**
 * AudioPlayerContext: the one shared audio element and the state the views
 * observe (`currentEpisode`, `isPlaying`, `currentTime`, `duration`).
 *
 * Each command of the context and each event the audio element delivers is
 * a transition from one observable state to the next, together with the
 * requests the transition makes of the audio element. The element's own
 * behaviour is not modelled: its outcomes (the promise returned by `play()`
 * settling, metadata arriving, time ticks, pause/play/ended) are inputs, in
 * any order. Times are whole seconds.
 */
module AudioPlayer {
  import opened Wrappers
  import opened Domain

  datatype Player = Player(
    currentEpisode: Option<Episode>,
    isPlaying: bool,
    currentTime: nat,
    duration: nat)

  /** `a` and `b` agree on every observable field except the playing flag. */
  predicate SameExceptPlaying(a: Player, b: Player) {
    a.currentEpisode == b.currentEpisode && a.currentTime == b.currentTime && a.duration == b.duration
  }

  /** The state before anything has been played. */
  const Initial := Player(None, false, 0, 0)

  const PlayFailedMessage := "Failed to play the episode. Please try again."

  /** What a transition asks of the audio element (or of the window, for the alert). */
  datatype Request =
    | SetSource(url: string)    // audio.src = url
    | Load                      // audio.load()
    | StartPlay                 // audio.play()
    | PauseAudio                // audio.pause()
    | SetPosition(time: nat)    // audio.currentTime = time
    | Alert(message: string)    // alert(message)

  datatype Transition = Transition(player: Player, requests: seq<Request>)

  /*
   * Commands.
   */

  /**
   * `playEpisode`: the state update, followed by the effect on
   * `[currentEpisode]`, which loads and starts the new source unless its
   * url is missing or empty. Time, duration and the playing flag stay as
   * they were until the audio element reports back; nothing is seeked.
   */
  function PlayEpisode(p: Player, episode: Episode): (t: Transition)
    ensures t.player.currentEpisode == Some(episode)
    ensures t.player.isPlaying == p.isPlaying
    ensures t.player.currentTime == p.currentTime && t.player.duration == p.duration
    ensures t.requests != [] <==> HasPlayableUrl(episode)
    ensures HasPlayableUrl(episode) ==> t.requests == [SetSource(episode.url.value), Load, StartPlay]
  {
    var next := p.(currentEpisode := Some(episode));
    if HasPlayableUrl(episode) then Transition(next, [SetSource(episode.url.value), Load, StartPlay])
    else Transition(next, [])
  }

  /** `pauseEpisode`: pause the element and clear the flag. */
  function PauseEpisode(p: Player): (t: Transition)
    ensures !t.player.isPlaying && SameExceptPlaying(t.player, p)
    ensures t.requests == [PauseAudio]
  {
    Transition(p.(isPlaying := false), [PauseAudio])
  }

  /** `resumeEpisode`: start the element and set the flag at once, without waiting for it. */
  function ResumeEpisode(p: Player): (t: Transition)
    ensures t.player.isPlaying && SameExceptPlaying(t.player, p)
    ensures t.requests == [StartPlay]
  {
    Transition(p.(isPlaying := true), [StartPlay])
  }

  /** `toggle`: pause when playing, resume otherwise. */
  function Toggle(p: Player): (t: Transition)
    ensures t.player.isPlaying == !p.isPlaying && SameExceptPlaying(t.player, p)
    ensures t.requests == if p.isPlaying then [PauseAudio] else [StartPlay]
  {
    if p.isPlaying then PauseEpisode(p) else ResumeEpisode(p)
  }

  /** `seek`: move the element and the observable time to exactly `time`. */
  function Seek(p: Player, time: nat): (t: Transition)
    ensures t.player.currentTime == time
    ensures t.player.currentEpisode == p.currentEpisode
    ensures t.player.isPlaying == p.isPlaying && t.player.duration == p.duration
    ensures t.requests == [SetPosition(time)]
  {
    Transition(p.(currentTime := time), [SetPosition(time)])
  }

  /*
   * Outcomes reported by the audio element.
   */

  /**
   * The promise of the `play()` issued by `playEpisode` resolved. The
   * handler does not ask which episode the promise belonged to.
   */
  function OnPlayResolved(p: Player): (r: Player)
    ensures r.isPlaying && SameExceptPlaying(r, p)
  {
    p.(isPlaying := true)
  }

  /** That promise was rejected: clear the flag and alert the user. */
  function OnPlayRejected(p: Player): (t: Transition)
    ensures !t.player.isPlaying && SameExceptPlaying(t.player, p)
    ensures t.requests == [Alert(PlayFailedMessage)]
  {
    Transition(p.(isPlaying := false), [Alert(PlayFailedMessage)])
  }

  /**
   * `loadedmetadata`: `duration` becomes `audio.duration || 0`.
   * `deviceDuration` is `None` while the element reports no number.
   */
  function OnLoadedMetadata(p: Player, deviceDuration: Option<nat>): (r: Player)
    ensures deviceDuration.Some? ==> r.duration == deviceDuration.value
    ensures deviceDuration.None? ==> r.duration == 0
    ensures r.currentEpisode == p.currentEpisode && r.isPlaying == p.isPlaying && r.currentTime == p.currentTime
  {
    p.(duration := deviceDuration.GetOr(0))
  }

  /** `timeupdate`: `currentTime` copies the element's position. */
  function OnTimeUpdate(p: Player, deviceTime: nat): (r: Player)
    ensures r.currentTime == deviceTime
    ensures r.currentEpisode == p.currentEpisode && r.isPlaying == p.isPlaying && r.duration == p.duration
  {
    p.(currentTime := deviceTime)
  }

  /** The `pause` event. */
  function OnPause(p: Player): (r: Player)
    ensures !r.isPlaying && SameExceptPlaying(r, p)
  {
    p.(isPlaying := false)
  }

  /** The `play` event. */
  function OnPlay(p: Player): (r: Player)
    ensures r.isPlaying && SameExceptPlaying(r, p)
  {
    p.(isPlaying := true)
  }

  /** The `ended` event. */
  function OnEnded(p: Player): (r: Player)
    ensures !r.isPlaying && SameExceptPlaying(r, p)
  {
    p.(isPlaying := false)
  }

  /** The `beforeunload` handler asks the browser to confirm leaving only while playing. */
  function UnloadWarning(p: Player): (warn: bool)
    ensures warn <==> p.isPlaying
  {
    p.isPlaying
  }

  /*
   * Runs: any interleaving of commands and element outcomes.
   */

  datatype Input =
    | Play(episode: Episode)
    | Pause
    | Resume
    | ToggleCommand
    | SeekTo(time: nat)
    | PlayResolved
    | PlayRejected
    | LoadedMetadata(deviceDuration: Option<nat>)
    | TimeUpdate(deviceTime: nat)
    | PauseEvent
    | PlayEvent
    | Ended

  function Step(p: Player, input: Input): Transition {
    match input
    case Play(e) => PlayEpisode(p, e)
    case Pause => PauseEpisode(p)
    case Resume => ResumeEpisode(p)
    case ToggleCommand => Toggle(p)
    case SeekTo(time) => Seek(p, time)
    case PlayResolved => Transition(OnPlayResolved(p), [])
    case PlayRejected => OnPlayRejected(p)
    case LoadedMetadata(d) => Transition(OnLoadedMetadata(p, d), [])
    case TimeUpdate(time) => Transition(OnTimeUpdate(p, time), [])
    case PauseEvent => Transition(OnPause(p), [])
    case PlayEvent => Transition(OnPlay(p), [])
    case Ended => Transition(OnEnded(p), [])
  }

  /** The state after `inputs`, oldest first. */
  function Run(p: Player, inputs: seq<Input>): Player
    decreases |inputs|
  {
    if |inputs| == 0 then p
    else Step(Run(p, inputs[..|inputs| - 1]), inputs[|inputs| - 1]).player
  }

  /** The episode of the latest `playEpisode` among `inputs`, or `current` if there is none. */
  function LastPlayed(inputs: seq<Input>, current: Option<Episode>): Option<Episode>
    decreases |inputs|
  {
    if |inputs| == 0 then current
    else if inputs[|inputs| - 1].Play? then Some(inputs[|inputs| - 1].episode)
    else LastPlayed(inputs[..|inputs| - 1], current)
  }

  /** The latest time set by `seek` or reported by `timeupdate`, or `current`. */
  function LastTime(inputs: seq<Input>, current: nat): nat
    decreases |inputs|
  {
    if |inputs| == 0 then current
    else match inputs[|inputs| - 1]
      case SeekTo(time) => time
      case TimeUpdate(time) => time
      case _ => LastTime(inputs[..|inputs| - 1], current)
  }

  /** The latest duration reported by `loadedmetadata`, or `current`. */
  function LastDuration(inputs: seq<Input>, current: nat): nat
    decreases |inputs|
  {
    if |inputs| == 0 then current
    else match inputs[|inputs| - 1]
      case LoadedMetadata(d) => d.GetOr(0)
      case _ => LastDuration(inputs[..|inputs| - 1], current)
  }

  /**
   * Whatever happens, the current episode is the one most recently asked
   * for: only `playEpisode` changes it, and the element cannot.
   */
  lemma {:induction false} EpisodeIsLastRequested(p: Player, inputs: seq<Input>)
    ensures Run(p, inputs).currentEpisode == LastPlayed(inputs, p.currentEpisode)
  {
    if |inputs| > 0 {
      EpisodeIsLastRequested(p, inputs[..|inputs| - 1]);
    }
  }

  /**
   * The displayed time is the last one sought or reported. In particular a
   * change of episode neither resets it nor restores saved progress.
   */
  lemma {:induction false} TimeIsLastSetOrReported(p: Player, inputs: seq<Input>)
    ensures Run(p, inputs).currentTime == LastTime(inputs, p.currentTime)
  {
    if |inputs| > 0 {
      TimeIsLastSetOrReported(p, inputs[..|inputs| - 1]);
    }
  }

  /** The duration is the last one reported with the metadata. */
  lemma {:induction false} DurationIsLastReported(p: Player, inputs: seq<Input>)
    ensures Run(p, inputs).duration == LastDuration(inputs, p.duration)
  {
    if |inputs| > 0 {
      DurationIsLastReported(p, inputs[..|inputs| - 1]);
    }
  }

  /** Two toggles give back the state they started from. */
  lemma ToggleTwice(p: Player)
    ensures Toggle(Toggle(p).player).player == p
  {
  }

  /**
   * The element echoes a command with an event; the echo changes nothing
   * further: `pause` after `pauseEpisode`, `play` after `resumeEpisode`.
   */
  lemma EchoesAreNoOps(p: Player)
    ensures OnPause(PauseEpisode(p).player) == PauseEpisode(p).player
    ensures OnPlay(ResumeEpisode(p).player) == ResumeEpisode(p).player
  {
  }

  /**
   * Whatever stops playback (a pause command, the `pause` or `ended` event,
   * a failed start) also silences the warning on leaving the page.
   */
  lemma StoppedMeansNoUnloadWarning(p: Player, input: Input)
    requires input.Pause? || input.PauseEvent? || input.Ended? || input.PlayRejected?
    ensures !UnloadWarning(Step(p, input).player)
  {
  }

  /**
   * A late confirmation for an earlier episode still sets the flag: after
   * asking for a playable episode and then for one without a url, the first
   * episode's `play()` resolving leaves the player "playing" an episode that
   * was never loaded.
   */
  lemma StaleConfirmationIsApplied(a: Episode, b: Episode)
    requires HasPlayableUrl(a) && !HasPlayableUrl(b)
    ensures var r := Run(Initial, [Play(a), Play(b), PlayResolved]);
            r.currentEpisode == Some(b) && r.isPlaying
  {
    var i := [Play(a), Play(b), PlayResolved];
    assert i[..2][..1] == [Play(a)];
  }

  /** Seeking past the end is not clamped: the time can exceed the duration. */
  lemma SeekIsNotClamped(p: Player, time: nat)
    requires time > p.duration
    ensures Seek(p, time).player.currentTime > Seek(p, time).player.duration
  {
  }
}

=== FILE: decimal.dfy ===
/**
 * Decimal rendering of natural numbers, as a JavaScript template literal
 * prints a non-negative integer (`${n}`), and the inverse parse.
 */
module Decimal {

  predicate IsDigit(c: char) {
    '0' <= c <= '9'
  }

  predicate AllDigits(s: string) {
    forall i | 0 <= i < |s| :: IsDigit(s[i])
  }

  function DigitValue(c: char): (d: nat)
    requires IsDigit(c)
    ensures d < 10
  {
    c as int - '0' as int
  }

  function DigitChar(d: nat): (c: char)
    requires d < 10
    ensures IsDigit(c) && DigitValue(c) == d
  {
    ('0' as int + d) as char
  }

  /** `${n}` for a natural number: shortest digit string, no leading zero. */
  function FromNat(n: nat): (s: string)
    ensures |s| >= 1 && AllDigits(s)
    ensures |s| == 1 <==> n < 10
    ensures n < 100 ==> |s| <= 2
    ensures s[0] == '0' ==> n == 0
    decreases n
  {
    if n < 10 then [DigitChar(n)] else FromNat(n / 10) + [DigitChar(n % 10)]
  }

  /** Value of a digit string, most significant digit first. */
  function ToNat(s: string): nat
    requires AllDigits(s)
    decreases |s|
  {
    if |s| == 0 then 0 else ToNat(s[..|s| - 1]) * 10 + DigitValue(s[|s| - 1])
  }

  /** Parsing the rendering of `n` gives back `n`. */
  lemma {:induction false} RoundTrip(n: nat)
    ensures ToNat(FromNat(n)) == n
  {
    if n >= 10 {
      var s := FromNat(n);
      assert s[..|s| - 1] == FromNat(n / 10);
      RoundTrip(n / 10);
    }
  }

  /** Distinct numbers render to distinct strings. */
  lemma FromNatInjective(a: nat, b: nat)
    ensures FromNat(a) == FromNat(b) <==> a == b
  {
    if FromNat(a) == FromNat(b) {
      RoundTrip(a);
      RoundTrip(b);
    }
  }

  /**
   * A string that ends in a run of digits preceded by a non-digit splits
   * in exactly one way into that prefix and that run.
   */
  lemma SplitAtDigitSuffix(p: string, d: string, p': string, d': string)
    requires p + d == p' + d'
    requires AllDigits(d) && AllDigits(d')
    requires |p| > 0 && !IsDigit(p[|p| - 1])
    requires |p'| > 0 && !IsDigit(p'[|p'| - 1])
    ensures p == p' && d == d'
  {
    var s := p + d;
    assert forall k | |p'| <= k < |s| :: s[k] == d'[k - |p'|];
    assert forall k | |p| <= k < |s| :: s[k] == d[k - |p|];
    assert s[|p| - 1] == p[|p| - 1];
    assert s[|p'| - 1] == p'[|p'| - 1];
    assert |p| == |p'|;
    assert p == s[..|p|] == p';
    assert d == s[|p|..] == d';
  }
}

=== FILE: domain.dfy ===
/**
 * The records that flow between the contexts and the views: an episode
 * reference (the object literal PodcastDetail hands to the favourites and
 * play buttons), a favourite (that reference plus `addedAt`), and a
 * listening-progress entry.
 */
module Domain {
  import opened Wrappers

  /**
   * An episode reference. `url` is the episode's `file` field, which the
   * catalogue may leave out (`None`) or leave empty.
   */
  datatype Episode = Episode(
    url: Option<string>,
    episodeId: string,
    episodeNumber: nat,
    episodeTitle: string,
    episodeDescription: string,
    showId: string,
    showTitle: string,
    seasonTitle: string,
    seasonImage: string)

  /** `{ ...episode, addedAt }`: the episode reference and its insertion timestamp. */
  datatype Favourite = Favourite(episode: Episode, addedAt: string)

  /**
   * A listening-progress entry. The store treats it as an opaque value:
   * nothing relates its fields to each other, and it is kept exactly as
   * given.
   */
  datatype Progress = Progress(position: int, duration: int, updatedAt: string)

  /** JavaScript's truthiness of `episode.url`: present and not the empty string. */
  predicate HasPlayableUrl(e: Episode) {
    e.url.Some? && e.url.value != ""
  }

  function IdOf(f: Favourite): string {
    f.episode.episodeId
  }
}

=== FILE: favourites.dfy ===
/**
 * The favourites registry of FavouritesContext: an insertion-ordered list
 * of favourite records, keyed by `episodeId`, mirrored into the store under
 * the key `favourites` after every change.
 */
module Favourites {
  import opened Wrappers
  import opened Domain
  import opened Storage

  /** No two records share an `episodeId`. */
  ghost predicate NoDuplicateIds(favs: seq<Favourite>) {
    forall i, j | 0 <= i < j < |favs| :: IdOf(favs[i]) != IdOf(favs[j])
  }

  /** `favs.some(ep => ep.episodeId === episodeId)`, scanning from the front. */
  function IsFavourite(favs: seq<Favourite>, episodeId: string): (b: bool)
    ensures b <==> exists i | 0 <= i < |favs| :: IdOf(favs[i]) == episodeId
  {
    if |favs| == 0 then false
    else IdOf(favs[0]) == episodeId || IsFavourite(favs[1..], episodeId)
  }

  /**
   * `addFavourite`: a record whose id is already present leaves the list as
   * it is; otherwise `{ ...episode, addedAt }` is appended at the end.
   */
  function AddFavourite(favs: seq<Favourite>, episode: Episode, addedAt: string): (r: seq<Favourite>)
    ensures IsFavourite(r, episode.episodeId)
    ensures IsFavourite(favs, episode.episodeId) ==> r == favs
    ensures !IsFavourite(favs, episode.episodeId) ==>
              |r| == |favs| + 1 && r[..|favs|] == favs && r[|favs|] == Favourite(episode, addedAt)
    ensures forall id :: IsFavourite(r, id) <==> IsFavourite(favs, id) || id == episode.episodeId
  {
    if IsFavourite(favs, episode.episodeId) then favs
    else
      var r := favs + [Favourite(episode, addedAt)];
      assert IdOf(r[|favs|]) == episode.episodeId;
      r
  }

  /** `removeFavourite`: `favs.filter(ep => ep.episodeId !== episodeId)`. */
  function RemoveFavourite(favs: seq<Favourite>, episodeId: string): (r: seq<Favourite>)
    ensures !IsFavourite(r, episodeId)
    ensures |r| <= |favs|
  {
    if |favs| == 0 then []
    else (if IdOf(favs[0]) == episodeId then [] else [favs[0]]) + RemoveFavourite(favs[1..], episodeId)
  }

  /** A record survives removal exactly when it was present and carries another id. */
  lemma {:induction false} RemoveKeepsOtherRecords(favs: seq<Favourite>, episodeId: string)
    ensures forall f :: f in RemoveFavourite(favs, episodeId) <==> f in favs && IdOf(f) != episodeId
  {
    if |favs| > 0 {
      RemoveKeepsOtherRecords(favs[1..], episodeId);
      assert favs == [favs[0]] + favs[1..];
    }
  }

  /** Removal changes the status of no other id. */
  lemma RemoveKeepsOtherIds(favs: seq<Favourite>, episodeId: string)
    ensures forall id | id != episodeId :: IsFavourite(RemoveFavourite(favs, episodeId), id) <==> IsFavourite(favs, id)
  {
    RemoveKeepsOtherRecords(favs, episodeId);
    forall id | id != episodeId
      ensures IsFavourite(RemoveFavourite(favs, episodeId), id) <==> IsFavourite(favs, id)
    {
      var r := RemoveFavourite(favs, episodeId);
      if IsFavourite(favs, id) {
        var i :| 0 <= i < |favs| && IdOf(favs[i]) == id;
        assert favs[i] in r;
      }
      if IsFavourite(r, id) {
        var i :| 0 <= i < |r| && IdOf(r[i]) == id;
        assert r[i] in favs;
      }
    }
  }

  /** Filtering keeps the surviving records in their original relative order. */
  lemma {:induction false} RemoveDistributes(a: seq<Favourite>, b: seq<Favourite>, episodeId: string)
    ensures RemoveFavourite(a + b, episodeId) == RemoveFavourite(a, episodeId) + RemoveFavourite(b, episodeId)
  {
    if |a| > 0 {
      assert (a + b)[1..] == a[1..] + b;
      RemoveDistributes(a[1..], b, episodeId);
    } else {
      assert a + b == b;
    }
  }

  /** Removing an id that no record carries changes nothing. */
  lemma {:induction false} RemoveAbsent(favs: seq<Favourite>, episodeId: string)
    requires !IsFavourite(favs, episodeId)
    ensures RemoveFavourite(favs, episodeId) == favs
  {
    if |favs| > 0 {
      assert !IsFavourite(favs[1..], episodeId);
      RemoveAbsent(favs[1..], episodeId);
      assert favs == [favs[0]] + favs[1..];
    }
  }

  /** Adding keeps the registry free of duplicate ids. */
  lemma AddKeepsNoDuplicates(favs: seq<Favourite>, episode: Episode, addedAt: string)
    requires NoDuplicateIds(favs)
    ensures NoDuplicateIds(AddFavourite(favs, episode, addedAt))
  {
  }

  /** Removing keeps the registry free of duplicate ids. */
  lemma {:induction false} RemoveKeepsNoDuplicates(favs: seq<Favourite>, episodeId: string)
    requires NoDuplicateIds(favs)
    ensures NoDuplicateIds(RemoveFavourite(favs, episodeId))
  {
    if |favs| > 0 {
      var rest := RemoveFavourite(favs[1..], episodeId);
      RemoveKeepsNoDuplicates(favs[1..], episodeId);
      RemoveKeepsOtherIds(favs[1..], episodeId);
      assert !IsFavourite(favs[1..], IdOf(favs[0]));
      if IdOf(favs[0]) != episodeId {
        assert !IsFavourite(rest, IdOf(favs[0]));
        var r := [favs[0]] + rest;
        forall i, j | 0 <= i < j < |r|
          ensures IdOf(r[i]) != IdOf(r[j])
        {
          if i == 0 {
            assert r[j] == rest[j - 1];
          } else {
            assert r[i] == rest[i - 1] && r[j] == rest[j - 1];
          }
        }
      }
    }
  }

  /** Adding a fresh episode and then removing its id restores the original list. */
  lemma {:induction false} AddThenRemove(favs: seq<Favourite>, episode: Episode, addedAt: string)
    requires !IsFavourite(favs, episode.episodeId)
    ensures RemoveFavourite(AddFavourite(favs, episode, addedAt), episode.episodeId) == favs
  {
    var f := Favourite(episode, addedAt);
    RemoveDistributes(favs, [f], episode.episodeId);
    RemoveAbsent(favs, episode.episodeId);
  }

  /** Adding the same episode twice leaves exactly one record for it. */
  lemma AddIdempotent(favs: seq<Favourite>, episode: Episode, t1: string, t2: string)
    ensures AddFavourite(AddFavourite(favs, episode, t1), episode, t2) == AddFavourite(favs, episode, t1)
  {
  }

  /*
   * Persistence. The provider reads the key once when it mounts, and an
   * effect keyed on the list writes the whole list back after the first
   * render and after every change.
   */

  /** The list as the provider initialises it: the stored one, or `[]` when the key is missing. */
  function Load(store: Store): (favs: seq<Favourite>)
    ensures store.favourites.None? ==> favs == []
    ensures store.favourites.Some? ==> favs == store.favourites.value
  {
    store.favourites.GetOr([])
  }

  /** `localStorage.setItem("favourites", JSON.stringify(favs))`. */
  function Persist(store: Store, favs: seq<Favourite>): (r: Store)
    ensures Load(r) == favs
    ensures r.listeningProgress == store.listeningProgress && r.theme == store.theme
  {
    store.(favourites := Some(favs))
  }

  /** The provider's state: the in-memory list and the browser storage. */
  datatype Registry = Registry(favourites: seq<Favourite>, store: Store)

  /** The store holds exactly the in-memory list. */
  ghost predicate Synced(reg: Registry) {
    reg.store.favourites == Some(reg.favourites)
  }

  /** Mounting the provider: load the list, then the effect's first run writes it back. */
  function Mount(store: Store): (reg: Registry)
    ensures Synced(reg)
    ensures reg.favourites == Load(store)
    ensures reg.store.listeningProgress == store.listeningProgress && reg.store.theme == store.theme
  {
    Registry(Load(store), Persist(store, Load(store)))
  }

  /** A state update followed by the effect that writes the new list back. */
  function Commit(reg: Registry, favs: seq<Favourite>): (r: Registry)
    ensures Synced(r) && r.favourites == favs
    ensures r.store.listeningProgress == reg.store.listeningProgress && r.store.theme == reg.store.theme
  {
    Registry(favs, Persist(reg.store, favs))
  }

  /** A reload after any sequence of changes starts from the last list written. */
  lemma ReloadSeesLastWrite(reg: Registry, favs: seq<Favourite>)
    ensures Mount(Commit(reg, favs).store).favourites == favs
  {
  }
}

=== FILE: favourites_button.dfy ===
/**
 * FavouritesButton: the heart on an episode card. A click removes the
 * episode from the favourites when it is one, and adds it otherwise.
 */
module FavouritesButton {
  import opened Domain
  import opened Favourites

  /** `toggleFavourite` for `episode`, with `addedAt` the clock reading used if it is added. */
  function ToggleFavourite(favs: seq<Favourite>, episode: Episode, addedAt: string): (r: seq<Favourite>)
    ensures IsFavourite(r, episode.episodeId) <==> !IsFavourite(favs, episode.episodeId)
    ensures forall id | id != episode.episodeId :: IsFavourite(r, id) <==> IsFavourite(favs, id)
    ensures !IsFavourite(favs, episode.episodeId) ==> r == favs + [Favourite(episode, addedAt)]
    ensures IsFavourite(favs, episode.episodeId) ==>
              forall f :: f in r <==> f in favs && IdOf(f) != episode.episodeId
    ensures IsFavourite(favs, episode.episodeId) ==> r == RemoveFavourite(favs, episode.episodeId)
  {
    if IsFavourite(favs, episode.episodeId) then
      RemoveKeepsOtherRecords(favs, episode.episodeId);
      RemoveKeepsOtherIds(favs, episode.episodeId);
      RemoveFavourite(favs, episode.episodeId)
    else AddFavourite(favs, episode, addedAt)
  }

  /** A toggle keeps the registry free of duplicate ids. */
  lemma ToggleKeepsNoDuplicates(favs: seq<Favourite>, episode: Episode, addedAt: string)
    requires NoDuplicateIds(favs)
    ensures NoDuplicateIds(ToggleFavourite(favs, episode, addedAt))
  {
    if IsFavourite(favs, episode.episodeId) {
      RemoveKeepsNoDuplicates(favs, episode.episodeId);
    } else {
      AddKeepsNoDuplicates(favs, episode, addedAt);
    }
  }

  /** Two clicks on a heart that was empty give back exactly the original list. */
  lemma {:induction false} ToggleTwiceRestores(favs: seq<Favourite>, episode: Episode, t1: string, t2: string)
    requires !IsFavourite(favs, episode.episodeId)
    ensures ToggleFavourite(ToggleFavourite(favs, episode, t1), episode, t2) == favs
  {
    AddThenRemove(favs, episode, t1);
  }

  /** The heart shown on the button: filled exactly when the episode is a favourite. */
  datatype Heart = Filled | Empty

  function HeartOf(favs: seq<Favourite>, episode: Episode): (h: Heart)
    ensures h == Filled <==> exists i | 0 <= i < |favs| :: IdOf(favs[i]) == episode.episodeId
  {
    if IsFavourite(favs, episode.episodeId) then Filled else Empty
  }

  /** Each click flips the heart. */
  lemma ClickFlipsHeart(favs: seq<Favourite>, episode: Episode, addedAt: string)
    ensures HeartOf(ToggleFavourite(favs, episode, addedAt), episode) != HeartOf(favs, episode)
  {
  }
}

=== FILE: global_audio_player.dfy ===
/**
 * GlobalAudioPlayer: the player bar. It shows nothing until an episode has
 * been chosen; then it shows the episode, a play/pause button wired to
 * `toggle`, the elapsed and total time as `m:ss`, and a slider whose moves
 * call `seek`.
 */
module GlobalAudioPlayer {
  import opened Wrappers
  import opened Decimal
  import opened AudioPlayer

  /** `formatTime` for a whole number of seconds: minutes, a colon, two-digit seconds. */
  function FormatTime(seconds: nat): (r: string)
    ensures |r| >= 4 && r[|r| - 3] == ':'
    ensures AllDigits(r[..|r| - 3]) && AllDigits(r[|r| - 2..])
  {
    var mins := seconds / 60;
    var secs := seconds % 60;
    FromNat(mins) + ":" + (if secs < 10 then "0" else "") + FromNat(secs)
  }

  /** The minutes field of a formatted time. */
  function MinutesField(r: string): string
    requires |r| >= 4
  {
    r[..|r| - 3]
  }

  /** The seconds field of a formatted time. */
  function SecondsField(r: string): string
    requires |r| >= 4
  {
    r[|r| - 2..]
  }

  /**
   * Reading a formatted time back: the minutes field is `seconds / 60`
   * without leading zeros, the seconds field is `seconds % 60`, in
   * `[0, 59]`, and together they give back `seconds`.
   */
  lemma FormatTimeReadsBack(seconds: nat)
    ensures var r := FormatTime(seconds);
            && MinutesField(r) == FromNat(seconds / 60)
            && ToNat(MinutesField(r)) == seconds / 60
            && ToNat(SecondsField(r)) == seconds % 60 <= 59
            && ToNat(MinutesField(r)) * 60 + ToNat(SecondsField(r)) == seconds
  {
    var secs := seconds % 60;
    var r := FormatTime(seconds);
    var m := FromNat(seconds / 60);
    var padded := (if secs < 10 then "0" else "") + FromNat(secs);
    assert |padded| == 2;
    assert r == m + ":" + padded;
    assert MinutesField(r) == m;
    assert SecondsField(r) == padded;
    RoundTrip(seconds / 60);
    RoundTrip(secs);
    if secs < 10 {
      assert padded[..1] == "0";
      assert padded[1..] == FromNat(secs);
    } else {
      assert padded == FromNat(secs);
    }
  }

  /** Zero seconds is shown as `0:00`. */
  lemma FormatZero()
    ensures FormatTime(0) == "0:00"
  {
  }

  datatype PlayIcon = PauseIcon | PlayIcon

  datatype View = View(
    title: string,
    showTitle: string,
    seasonTitle: string,
    episodeNumber: nat,
    icon: PlayIcon,
    elapsed: string,
    total: string,
    sliderMax: nat,
    sliderValue: nat)

  /** The bar as rendered, or `None` when no episode is selected. */
  function Render(p: Player): (v: Option<View>)
    ensures v.None? <==> p.currentEpisode.None?
    ensures v.Some? ==> v.value.title == p.currentEpisode.value.episodeTitle
    ensures v.Some? ==> (v.value.icon == PauseIcon <==> p.isPlaying)
    ensures v.Some? ==> v.value.sliderMax == p.duration && v.value.sliderValue == p.currentTime
    ensures v.Some? ==> v.value.elapsed == FormatTime(p.currentTime) && v.value.total == FormatTime(p.duration)
    ensures v.Some? ==> v.value.showTitle == p.currentEpisode.value.showTitle
                        && v.value.seasonTitle == p.currentEpisode.value.seasonTitle
                        && v.value.episodeNumber == p.currentEpisode.value.episodeNumber
  {
    match p.currentEpisode
    case None => None
    case Some(e) =>
      Some(View(
        e.episodeTitle, e.showTitle, e.seasonTitle, e.episodeNumber,
        if p.isPlaying then PauseIcon else PlayIcon,
        FormatTime(p.currentTime), FormatTime(p.duration),
        p.duration, p.currentTime))
  }

  /**
   * The elapsed and total labels read back as the player's time and
   * duration: whole minutes without leading zeros, then seconds in `[0, 59]`.
   */
  lemma RenderedTimesReadBack(p: Player)
    requires p.currentEpisode.Some?
    ensures var v := Render(p).value;
            && MinutesField(v.elapsed) == FromNat(p.currentTime / 60)
            && ToNat(SecondsField(v.elapsed)) == p.currentTime % 60 <= 59
            && ToNat(MinutesField(v.elapsed)) * 60 + ToNat(SecondsField(v.elapsed)) == p.currentTime
            && MinutesField(v.total) == FromNat(p.duration / 60)
            && ToNat(SecondsField(v.total)) == p.duration % 60 <= 59
            && ToNat(MinutesField(v.total)) * 60 + ToNat(SecondsField(v.total)) == p.duration
  {
    FormatTimeReadsBack(p.currentTime);
    FormatTimeReadsBack(p.duration);
  }

  /** Moving the slider to `value` seeks there. */
  function OnSliderChange(p: Player, value: nat): (t: Transition)
    ensures t.player.currentTime == value
    ensures t.requests == [SetPosition(value)]
    ensures t.player.currentEpisode == p.currentEpisode && t.player.isPlaying == p.isPlaying
    ensures t.player.duration == p.duration
  {
    Seek(p, value)
  }

  /** After a slider move, the bar shows the chosen position on the slider and as elapsed time. */
  lemma SliderShowsChosenPosition(p: Player, value: nat)
    requires p.currentEpisode.Some?
    ensures var v := Render(OnSliderChange(p, value).player).value;
            v.sliderValue == value && v.elapsed == FormatTime(value)
  {
  }

  /** The play/pause button flips the icon. */
  lemma ButtonFlipsIcon(p: Player)
    requires p.currentEpisode.Some?
    ensures Render(Toggle(p).player).value.icon != Render(p).value.icon
  {
  }
}

=== FILE: listening_progress.dfy ===
/**
 * listeningProgress: every episode's progress lives in one document stored
 * under the key `listeningProgress`, a map from episode key to the record
 * the caller supplied. Records are stored as given.
 */
module ListeningProgress {
  import opened Wrappers
  import opened Domain
  import opened Storage

  /** `getAllProgress`: the stored map, or `{}` when the key is missing. */
  function GetAllProgress(store: Store): (all: map<string, Progress>)
    ensures store.listeningProgress.None? ==> all == map[]
    ensures store.listeningProgress.Some? ==> all == store.listeningProgress.value
  {
    store.listeningProgress.GetOr(map[])
  }

  /** `getProgress`: the record saved under `key`, or absent (`undefined`). */
  function GetProgress(store: Store, key: string): (r: Option<Progress>)
    ensures r.Some? <==> key in GetAllProgress(store)
    ensures r.Some? ==> r.value == GetAllProgress(store)[key]
  {
    var all := GetAllProgress(store);
    if key in all then Some(all[key]) else None
  }

  /** `saveProgress`: read the whole map, set one entry, write the whole map back. */
  function SaveProgress(store: Store, key: string, data: Progress): (r: Store)
    ensures GetProgress(r, key) == Some(data)
    ensures forall k | k != key :: GetProgress(r, k) == GetProgress(store, k)
    ensures GetAllProgress(r).Keys == GetAllProgress(store).Keys + {key}
    ensures r.favourites == store.favourites && r.theme == store.theme
  {
    store.(listeningProgress := Some(GetAllProgress(store)[key := data]))
  }

  /** `clearAllProgress`: remove the key. */
  function ClearAllProgress(store: Store): (r: Store)
    ensures forall k :: GetProgress(r, k) == None
    ensures GetAllProgress(r) == map[]
    ensures r.favourites == store.favourites && r.theme == store.theme
  {
    store.(listeningProgress := None)
  }

  /** Saving the same record twice is the same as saving it once. */
  lemma SaveIdempotent(store: Store, key: string, data: Progress)
    ensures SaveProgress(SaveProgress(store, key, data), key, data) == SaveProgress(store, key, data)
  {
    var m := GetAllProgress(store)[key := data];
    assert m[key := data] == m;
  }

  /** A sequence of `saveProgress` calls, oldest first. */
  function SaveAll(store: Store, saves: seq<(string, Progress)>): (r: Store)
    decreases |saves|
  {
    if |saves| == 0 then store
    else
      var last := saves[|saves| - 1];
      SaveProgress(SaveAll(store, saves[..|saves| - 1]), last.0, last.1)
  }

  /** The record of the most recent save under `key`, if any. */
  function LastSaved(saves: seq<(string, Progress)>, key: string): Option<Progress>
    decreases |saves|
  {
    if |saves| == 0 then None
    else if saves[|saves| - 1].0 == key then Some(saves[|saves| - 1].1)
    else LastSaved(saves[..|saves| - 1], key)
  }

  /**
   * After any sequence of saves, `getProgress(key)` is the record of the
   * latest save under `key`, untouched; a key never saved reads as it did
   * before the saves.
   */
  lemma {:induction false} GetAfterSaves(store: Store, saves: seq<(string, Progress)>, key: string)
    ensures GetProgress(SaveAll(store, saves), key) ==
            if LastSaved(saves, key).Some? then LastSaved(saves, key) else GetProgress(store, key)
  {
    if |saves| > 0 {
      GetAfterSaves(store, saves[..|saves| - 1], key);
    }
  }

  /** On a fresh browser profile, a key that no save used reads as absent. */
  lemma NeverSavedIsAbsent(saves: seq<(string, Progress)>, key: string)
    requires forall i | 0 <= i < |saves| :: saves[i].0 != key
    ensures GetProgress(SaveAll(Empty, saves), key) == None
  {
    GetAfterSaves(Empty, saves, key);
    NotSavedHasNoLast(saves, key);
  }

  lemma {:induction false} NotSavedHasNoLast(saves: seq<(string, Progress)>, key: string)
    requires forall i | 0 <= i < |saves| :: saves[i].0 != key
    ensures LastSaved(saves, key) == None
  {
    if |saves| > 0 {
      NotSavedHasNoLast(saves[..|saves| - 1], key);
    }
  }
}

=== FILE: pagination.dfy ===
/**
 * Pagination: the numbered page bar. Hidden when there is at most one
 * page; otherwise one button per page, the current page's marked active,
 * and a click on a button makes its page current.
 */
module Pagination {
  import opened Wrappers

  /** `Array.from({ length: totalPages }, (_, i) => i + 1)`. */
  function Pages(totalPages: nat): (pages: seq<int>)
    ensures |pages| == totalPages
    ensures forall p :: p in pages <==> 1 <= p <= totalPages
    ensures totalPages > 0 ==> pages[0] == 1 && pages[|pages| - 1] == totalPages
    ensures forall i | 0 < i < |pages| :: pages[i] == pages[i - 1] + 1
  {
    var pages := seq(totalPages, i requires 0 <= i => i + 1);
    forall p | 1 <= p <= totalPages
      ensures p in pages
    {
      assert pages[p - 1] == p;
    }
    pages
  }

  datatype PageButton = PageButton(page: int, active: bool)

  /** The context's paging state: the current page and the page count. */
  datatype PageState = PageState(page: int, totalPages: int)

  /** The bar as rendered: `None` (nothing) when `totalPages <= 1`. */
  function Render(s: PageState): (bar: Option<seq<PageButton>>)
    ensures bar.None? <==> s.totalPages <= 1
    ensures bar.Some? ==> |bar.value| == s.totalPages
    ensures bar.Some? ==> forall i | 0 <= i < |bar.value| :: bar.value[i].page == Pages(s.totalPages)[i]
    ensures bar.Some? ==> forall i | 0 <= i < |bar.value| :: bar.value[i].active <==> bar.value[i].page == s.page
  {
    if s.totalPages <= 1 then None
    else
      var pages := Pages(s.totalPages);
      Some(seq(|pages|, i requires 0 <= i < |pages| => PageButton(pages[i], pages[i] == s.page)))
  }

  /**
   * At most one button is active, and one is exactly when the current page
   * is between 1 and the page count.
   */
  lemma ActiveButtonUnique(s: PageState)
    requires s.totalPages > 1
    ensures var bar := Render(s).value;
            && (forall i, j | 0 <= i < |bar| && 0 <= j < |bar| :: bar[i].active && bar[j].active ==> i == j)
            && ((exists i | 0 <= i < |bar| :: bar[i].active) <==> 1 <= s.page <= s.totalPages)
  {
    var bar := Render(s).value;
    var pages := Pages(s.totalPages);
    if 1 <= s.page <= s.totalPages {
      assert s.page in pages;
      var k :| 0 <= k < |pages| && pages[k] == s.page;
      assert bar[k].active;
    }
  }

  /** `onClick={() => setPage(p)}` on a button. */
  function Click(s: PageState, button: PageButton): (r: PageState)
    ensures r.page == button.page && r.totalPages == s.totalPages
  {
    s.(page := button.page)
  }

  /** After clicking a rendered button, the re-rendered bar marks that button, and only it, active. */
  lemma ClickActivatesButton(s: PageState, k: nat)
    requires s.totalPages > 1 && k < s.totalPages
    ensures var bar := Render(Click(s, Render(s).value[k])).value;
            bar[k].active && forall i | 0 <= i < |bar| && i != k :: !bar[i].active
  {
    var r := Click(s, Render(s).value[k]);
    ActiveButtonUnique(r);
  }
}

=== FILE: podcast_detail.dfy ===
/**
 * PodcastDetail: the show page. It derives, for each episode of the
 * selected season, the episode reference that both the favourites button
 * and the play button receive, counts the show's episodes, and offers one
 * season choice per season.
 */
module PodcastDetail {
  import opened Wrappers
  import opened Decimal
  import opened Domain
  import Favourites
  import FavouritesButton
  import AudioPlayer

  /** One episode as the catalogue supplies it; `file` is its audio url. */
  datatype CatalogueEpisode = CatalogueEpisode(title: string, description: string, file: Option<string>)

  datatype Season = Season(title: string, image: string, description: string, episodes: seq<CatalogueEpisode>)

  datatype Podcast = Podcast(id: string, title: string, seasons: seq<Season>)

  /** `index + 1`: episodes are numbered from one within their season. */
  function EpisodeNumber(index: nat): (n: nat)
    ensures n >= 1 && n - 1 == index
  {
    index + 1
  }

  /** `${podcast.id}-S${selectedSeasonIndex + 1}-E${episodeNumber}`. */
  function EpisodeKey(showId: string, seasonIndex: nat, episodeIndex: nat): (k: string)
    ensures |k| > |showId| + 2 && k[..|showId| + 2] == showId + "-S"
    ensures var m := FromNat(seasonIndex + 1);
            var n := FromNat(EpisodeNumber(episodeIndex));
            && |k| == |showId| + 2 + |m| + 2 + |n|
            && k[|showId| + 2..|showId| + 2 + |m|] == m
            && ToNat(m) == seasonIndex + 1
    ensures var n := FromNat(EpisodeNumber(episodeIndex));
            && |k| > |n| + 2
            && k[|k| - |n| - 2..|k| - |n|] == "-E"
            && k[|k| - |n|..] == n
            && ToNat(k[|k| - |n|..]) == episodeIndex + 1
  {
    var m := FromNat(seasonIndex + 1);
    var n := FromNat(EpisodeNumber(episodeIndex));
    var k := showId + "-S" + m + "-E" + n;
    RoundTrip(seasonIndex + 1);
    RoundTrip(EpisodeNumber(episodeIndex));
    assert k == (showId + "-S") + m + ("-E" + n);
    assert k[|showId| + 2..|showId| + 2 + |m|] == m;
    assert k[|k| - |n|..] == n;
    assert k[|k| - |n| - 2..|k| - |n|] == "-E";
    assert k[..|showId| + 2] == showId + "-S";
    k
  }

  /**
   * The key identifies its show, season and episode: two keys are equal
   * exactly when they were built from the same triple. So the keys of one
   * season's list are distinct, and a favourite saved from one card never
   * matches another card.
   */
  lemma EpisodeKeyInjective(s1: string, a1: nat, b1: nat, s2: string, a2: nat, b2: nat)
    ensures EpisodeKey(s1, a1, b1) == EpisodeKey(s2, a2, b2) <==> s1 == s2 && a1 == a2 && b1 == b2
  {
    if EpisodeKey(s1, a1, b1) == EpisodeKey(s2, a2, b2) {
      var x1 := s1 + "-S" + FromNat(a1 + 1);
      var x2 := s2 + "-S" + FromNat(a2 + 1);
      SplitAtDigitSuffix(x1 + "-E", FromNat(b1 + 1), x2 + "-E", FromNat(b2 + 1));
      assert x1 == (x1 + "-E")[..|x1|] == (x2 + "-E")[..|x2|] == x2;
      SplitAtDigitSuffix(s1 + "-S", FromNat(a1 + 1), s2 + "-S", FromNat(a2 + 1));
      assert s1 == (s1 + "-S")[..|s1|] == (s2 + "-S")[..|s2|] == s2;
      FromNatInjective(a1 + 1, a2 + 1);
      FromNatInjective(b1 + 1, b2 + 1);
    }
  }

  /** Within one season of one show, different positions give different keys. */
  lemma SeasonKeysDistinct(showId: string, seasonIndex: nat, i: nat, j: nat)
    requires i != j
    ensures EpisodeKey(showId, seasonIndex, i) != EpisodeKey(showId, seasonIndex, j)
  {
    EpisodeKeyInjective(showId, seasonIndex, i, showId, seasonIndex, j);
  }

  /**
   * The episode reference built on the card of episode `episodeIndex` of
   * season `seasonIndex`. The two object literals handed to the favourites
   * button and to `playEpisode` are field-for-field the same, so one
   * definition serves both.
   */
  function EpisodeRef(podcast: Podcast, seasonIndex: nat, episodeIndex: nat): (e: Episode)
    requires seasonIndex < |podcast.seasons|
    requires episodeIndex < |podcast.seasons[seasonIndex].episodes|
    ensures e.episodeId == EpisodeKey(podcast.id, seasonIndex, episodeIndex)
    ensures e.episodeNumber == EpisodeNumber(episodeIndex) == episodeIndex + 1
    ensures e.url == podcast.seasons[seasonIndex].episodes[episodeIndex].file
    ensures e.showId == podcast.id
  {
    var season := podcast.seasons[seasonIndex];
    var ep := season.episodes[episodeIndex];
    Episode(ep.file, EpisodeKey(podcast.id, seasonIndex, episodeIndex), EpisodeNumber(episodeIndex),
            ep.title, ep.description, podcast.id, podcast.title, season.title, season.image)
  }

  /** Two cards of the same show carry the same episode id only if they are the same card. */
  lemma CardIdsDistinct(podcast: Podcast, a1: nat, b1: nat, a2: nat, b2: nat)
    requires a1 < |podcast.seasons| && b1 < |podcast.seasons[a1].episodes|
    requires a2 < |podcast.seasons| && b2 < |podcast.seasons[a2].episodes|
    requires (a1, b1) != (a2, b2)
    ensures EpisodeRef(podcast, a1, b1).episodeId != EpisodeRef(podcast, a2, b2).episodeId
  {
    EpisodeKeyInjective(podcast.id, a1, b1, podcast.id, a2, b2);
  }

  /** Every episode of the listed seasons, season by season, in order. */
  function AllEpisodes(seasons: seq<Season>): seq<CatalogueEpisode>
    decreases |seasons|
  {
    if |seasons| == 0 then []
    else AllEpisodes(seasons[..|seasons| - 1]) + seasons[|seasons| - 1].episodes
  }

  /** `podcast.seasons.reduce((acc, s) => acc + s.episodes.length, 0)`. */
  method TotalEpisodes(podcast: Podcast) returns (total: nat)
    ensures total == |AllEpisodes(podcast.seasons)|
    ensures forall i | 0 <= i < |podcast.seasons| :: |podcast.seasons[i].episodes| <= total
  {
    var seasons := podcast.seasons;
    total := 0;
    var i := 0;
    while i < |seasons|
      invariant 0 <= i <= |seasons|
      invariant total == |AllEpisodes(seasons[..i])|
      invariant forall k | 0 <= k < i :: |seasons[k].episodes| <= total
    {
      assert seasons[..i + 1][..i] == seasons[..i];
      total := total + |seasons[i].episodes|;
      i := i + 1;
    }
    assert seasons[..i] == seasons;
  }

  /** One entry of the season drop-down: its value and its caption. */
  datatype SeasonChoice = SeasonChoice(value: nat, caption: string)

  /** `podcast.seasons.map((s, i) => <option value={i}>Season {i + 1}</option>)`. */
  function SeasonChoices(podcast: Podcast): (r: seq<SeasonChoice>)
    ensures |r| == |podcast.seasons|
    ensures forall i | 0 <= i < |r| :: r[i].value == i
    ensures forall i | 0 <= i < |r| :: |r[i].caption| > 7 && r[i].caption[..7] == "Season " &&
                                        r[i].caption[7..] == FromNat(i + 1) &&
                                        AllDigits(r[i].caption[7..]) && ToNat(r[i].caption[7..]) == r[i].value + 1
  {
    var r := seq(|podcast.seasons|, i requires 0 <= i => SeasonChoice(i, "Season " + FromNat(i + 1)));
    forall i | 0 <= i < |r| ensures r[i].caption[7..] == FromNat(i + 1) && ToNat(FromNat(i + 1)) == i + 1 {
      RoundTrip(i + 1);
    }
    r
  }

  /**
   * The play button and the favourites button of one card refer to the same
   * episode: after a click on play, the favourites button of that card
   * tests, and its click toggles, the favourite status of exactly the
   * episode now current in the player.
   *
   * This holds by construction: the two object literals the card builds
   * (PodcastDetail.jsx lines 128-138 and 145-155) are identical field for
   * field, so both buttons receive the one `EpisodeRef`. The lemma records
   * the consequence for the player and the registry; the evidence is that
   * reading of the source.
   */
  lemma CardButtonsAgree(podcast: Podcast, seasonIndex: nat, episodeIndex: nat,
                         p: AudioPlayer.Player, favs: seq<Favourite>, addedAt: string)
    requires seasonIndex < |podcast.seasons|
    requires episodeIndex < |podcast.seasons[seasonIndex].episodes|
    ensures var e := EpisodeRef(podcast, seasonIndex, episodeIndex);
            var current := AudioPlayer.PlayEpisode(p, e).player.currentEpisode.value;
            && current.episodeId == e.episodeId
            && current.url == e.url
            && current.episodeNumber == e.episodeNumber
            && (Favourites.IsFavourite(FavouritesButton.ToggleFavourite(favs, e, addedAt), current.episodeId)
                <==> !Favourites.IsFavourite(favs, current.episodeId))
  {
  }
}

=== FILE: storage.dfy ===
/**
 * The browser's `localStorage`, restricted to the three keys the app uses.
 * Each field is the document stored under the key of the same name, already
 * parsed: serialisation with `JSON.stringify`/`JSON.parse` is taken to
 * round-trip, so a slot holds exactly what was last written to it. `None`
 * is a key that `getItem` reports as missing.
 */
module Storage {
  import opened Wrappers
  import opened Domain

  datatype Store = Store(
    favourites: Option<seq<Favourite>>,
    listeningProgress: Option<map<string, Progress>>,
    theme: Option<string>)

  /** A browser profile in which the app has never stored anything. */
  const Empty := Store(None, None, None)
}

=== FILE: theme.dfy ===
/**
 * ThemeContext: the colour theme, read from the store key `theme` when the
 * provider mounts and written back (and applied to the page) whenever it
 * changes. The provider is taken as the arrow function it is evidently
 * meant to be.
 */
module Theme {
  import opened Wrappers
  import opened Storage

  const Light := "light"
  const Dark := "dark"

  /** `localStorage.getItem("theme") || "light"`: a missing or empty value falls back to light. */
  function InitialTheme(store: Store): (t: string)
    ensures t != ""
    ensures store.theme.Some? && store.theme.value != "" ==> t == store.theme.value
    ensures store.theme.None? || store.theme.value == "" ==> t == Light
  {
    match store.theme
    case Some(saved) => if saved != "" then saved else Light
    case None => Light
  }

  /** `toggleTheme`: light becomes dark; every other value becomes light. */
  function ToggleTheme(theme: string): (t: string)
    ensures theme == Light ==> t == Dark
    ensures theme != Light ==> t == Light
    ensures t == Light || t == Dark
  {
    if theme == Light then Dark else Light
  }

  /** The effect on `[theme]`: `localStorage.setItem("theme", theme)`. */
  function PersistTheme(store: Store, theme: string): (r: Store)
    ensures r.theme == Some(theme)
    ensures r.favourites == store.favourites && r.listeningProgress == store.listeningProgress
  {
    store.(theme := Some(theme))
  }

  /** The provider's state: the current theme and the browser storage. */
  datatype ThemeState = ThemeState(theme: string, store: Store)

  function Mount(store: Store): (s: ThemeState)
    ensures s.store.theme == Some(s.theme)
    ensures s.theme == InitialTheme(store)
    ensures s.store.favourites == store.favourites && s.store.listeningProgress == store.listeningProgress
  {
    ThemeState(InitialTheme(store), PersistTheme(store, InitialTheme(store)))
  }

  /** A click on the theme switch: toggle, then the effect writes the new value. */
  function Toggle(s: ThemeState): (r: ThemeState)
    ensures r.store.theme == Some(r.theme)
    ensures r.theme != s.theme
    ensures r.theme == ToggleTheme(s.theme)
    ensures r.store.favourites == s.store.favourites && r.store.listeningProgress == s.store.listeningProgress
  {
    var t := ToggleTheme(s.theme);
    ThemeState(t, PersistTheme(s.store, t))
  }

  /** Starting from light or dark, two toggles return to the starting theme. */
  lemma ToggleTwice(theme: string)
    requires theme == Light || theme == Dark
    ensures ToggleTheme(ToggleTheme(theme)) == theme
  {
  }

  /** A reload after a toggle comes back with the toggled theme. */
  lemma ReloadKeepsTheme(s: ThemeState)
    ensures Mount(Toggle(s).store).theme == Toggle(s).theme
  {
  }
}

=== FILE: wrappers.dfy ===
/** Optional values: JavaScript's `null` / `undefined` for a value that may be absent. */
module Wrappers {

  datatype Option<+T> = None | Some(value: T) {

    /** The value, or `default` when absent (JavaScript's `x ?? default`). */
    function GetOr(default: T): T {
      match this
      case Some(v) => v
      case None => default
    }
  }
}
